=== FILE: README.md ===
# Circular carousel layout, modelled in Dafny

This project models the layout engine of RJCircularCollectionViewLayout. The engine is a
collection-view layout that places a horizontally scrolling carousel's items on a circular arc.
Each item is rotated by an `angle` about a pivot (`anchorPoint`) that lies `radius` below it.
The horizontal scroll offset maps linearly onto a global rotation. Each frame, the layout picks
the contiguous window of items whose angle falls inside the visible aperture `theta` and stamps
an angle and center onto them. When a scroll ends, it snaps the offset to a whole number of
items in the direction of the fling.

Modules, in dependency order:

- `Rounding` (`rounding.dfy`): `floor`, `ceil`, `round` (halfway cases away from zero) and
  Swift's truncating `Int(...)`, over exact reals.
- `Geometry` (`geometry.dfy`): `Point`, `Size`, `Rect`, and a `Result` whose `Fault` names the
  places where the Swift code traps or divides by zero.
- `LayoutAttributes` (`attributes.dfy`): the per-item attribute record. It covers the angle
  setter with its derived `zIndex`, `copy` and `isEqual`.
- `CircularLayout` (`layout.dfy`): the layout state (configuration, `anglePerItem` and the
  cached attribute list). It covers the `itemSize`/`radius` setters, `angleAtExtreme`,
  `angle`, `collectionViewContentSize`, `prepare` (as written and corrected) and
  `layoutAttributesForItem`.
- `VisibleRange` (`window.dfy`): `layoutAttributesForElements`. It covers the index window, the
  stamping of the cached entries and a full layout pass.
- `Snapping` (`snapping.dfy`): `targetContentOffset`.

The layout is a value. Each setter and each `prepare` returns a new layout. The
visible-elements query returns the visible entries together with the updated cache, because
the Swift code mutates the shared attribute objects in place. The arctangents are not
computed. The setters take `spacing(width, radius)`, which stands for `atan(width / radius)`.
The window query takes `theta`, which stands for
`atan2(bounds.width / 2, radius + itemSize.height / 2 - bounds.height / 2)`.

Each of the following becomes a `Failure` rather than a number:

- a floating-point division by zero, which IEEE arithmetic would turn into an infinity or NaN;
- an `Int(...)` conversion of such a value, which traps;
- the closed range `0...-1`;
- an array subscript out of range.

Three behaviours of the code are easy to miss, and the model keeps each as written:

- `angle` (line 74) and `targetContentOffset` (line 151) divide by the content width minus the bounds width
  and have no guard for content exactly as wide as the bounds. There `Angle` and `TargetContentOffset`
  return `DivideByZero`.
- The stacking order `zIndex` is `Int(angle * 1000000)` (line 26), which truncates toward zero.
- `prepare` compares the cache length with the item count minus one (lines 100-101) and traps on zero
  items (see Findings).

## Model

| member | source | states |
|---|---|---|
| `Rounding.Truncate` | Pod/Classes/CircularCollectionViewLayout.swift:26 | `Int(x)` truncates toward zero: the result is never of the opposite sign to `x` and lies within 1 of it, on the side of zero |
| `Rounding.Floor` | Pod/Classes/CircularCollectionViewLayout.swift:121 | `floor` is the greatest integer not above its argument (also used at line 158) |
| `Rounding.Ceil` | Pod/Classes/CircularCollectionViewLayout.swift:124 | `ceil` is the least integer not below its argument (also used at line 156) |
| `Rounding.RoundHalfAway` | Pod/Classes/CircularCollectionViewLayout.swift:160 | `round` lands within 1/2 of its argument; a non-negative halfway case goes up, a negative one goes down (away from zero) |
| `Rounding.TruncateMonotone` | Pod/Classes/CircularCollectionViewLayout.swift:26 | truncation never reverses the order of two values |
| `Rounding.RoundingFixesIntegers` | Pod/Classes/CircularCollectionViewLayout.swift:155-160 | `floor`, `ceil` and `round` each leave an integer unchanged |
| `LayoutAttributes.Fresh` | Pod/Classes/CircularCollectionViewLayout.swift:104 | a newly created record describes the given item, has zero size and center, the default pivot (0.5, 0.5), angle 0 and stacking order 0, so its stacking order matches its angle |
| `LayoutAttributes.WithAngle` | Pod/Classes/CircularCollectionViewLayout.swift:24-29 | assigning `angle` makes the stacking order consistent with the new angle and changes no other field |
| `LayoutAttributes.ZIndexMonotone` | Pod/Classes/CircularCollectionViewLayout.swift:24-29 | `zIndex = Int(angle*1000000)` is non-decreasing in the angle, and it is never of the opposite sign to the angle |
| `LayoutAttributes.Copy` | Pod/Classes/CircularCollectionViewLayout.swift:31-36 | a copy keeps angle, pivot, item, size and center and is consistent; it equals the original exactly when the original was consistent |
| `LayoutAttributes.IsEqual` | Pod/Classes/CircularCollectionViewLayout.swift:38-51 | `isEqual` is false for nil, for another class, and when angle or pivot differ; it is true exactly for an identical record |
| `LayoutAttributes.IsEqualSymmetric` | Pod/Classes/CircularCollectionViewLayout.swift:38-51 | comparing two records gives the same answer in either order |
| `LayoutAttributes.CopyIsEqual` | Pod/Classes/CircularCollectionViewLayout.swift:31-51 | a consistent record and its copy compare equal both ways |
| `CircularLayout.SetItemSize` | Pod/Classes/CircularCollectionViewLayout.swift:61-67 | setting the item size recomputes the spacing from the new width and current radius and empties the cache |
| `CircularLayout.SetRadius` | Pod/Classes/CircularCollectionViewLayout.swift:77-83 | setting the radius recomputes the spacing from the current width and new radius and empties the cache |
| `CircularLayout.SettersCommute` | Pod/Classes/CircularCollectionViewLayout.swift:61-83 | the spacing depends only on the final (size, radius) pair, not on the order of the two setters |
| `CircularLayout.AngleAtExtreme` | Pod/Classes/CircularCollectionViewLayout.swift:69-71 | zero for no items; otherwise the rotation that brings the last item to angle 0; never positive for a non-negative spacing |
| `CircularLayout.ContentSize` | Pod/Classes/CircularCollectionViewLayout.swift:89-92 | content is one item width per item wide (never negative for a non-negative width) and exactly as tall as the bounds |
| `CircularLayout.Angle` | Pod/Classes/CircularCollectionViewLayout.swift:73-75 | the rotation is defined exactly when content width differs from bounds width; it is 0 at offset 0 and `angleAtExtreme` at the far end of the scroll range |
| `CircularLayout.AngleNonIncreasing` | Pod/Classes/CircularCollectionViewLayout.swift:73-75 | when the content is wider than the bounds, scrolling right never increases the rotation |
| `CircularLayout.ExtremesCenterEndItems` | Pod/Classes/CircularCollectionViewLayout.swift:69-75 | at the far right the last item's slot angle is 0, and at offset 0 the first item's is |
| `CircularLayout.BuiltIsIndexed` | Pod/Classes/CircularCollectionViewLayout.swift:103-107 | a rebuilt cache has entry `i` describing item `i`, each with a consistent stacking order |
| `CircularLayout.Rebuild` | Pod/Classes/CircularCollectionViewLayout.swift:102-108 | a rebuild gives exactly `n` fresh entries, entry `i` for item `i` with the configured size and the shared pivot `(0.5, (h/2 + r)/h)`; the configuration is unchanged |
| `CircularLayout.Prepare` | Pod/Classes/CircularCollectionViewLayout.swift:98-110 | as written: the cache is kept when its length is the count minus one; otherwise it traps for zero items and rebuilds exactly `n` entries for `n >= 1`, after which the guard again fails |
| `CircularLayout.PrepareCorrected` | Pod/Classes/CircularCollectionViewLayout.swift:98-110 | corrected: the cache is kept exactly when its length is the count, and afterwards always holds exactly one entry per item, zero items included |
| `CircularLayout.PrepareCorrectedIdempotent` | Pod/Classes/CircularCollectionViewLayout.swift:100-101 | a second corrected `prepare` with the same count leaves the layout as it is |
| `CircularLayout.PrepareCorrectedAgreesOffGuard` | Pod/Classes/CircularCollectionViewLayout.swift:100-108 | for at least one item, both versions agree whenever the cache length is neither `n` nor `n - 1` (for zero items they differ: the code traps, the correction empties the cache) |
| `CircularLayout.PrepareTrapsOnNoItems` | Pod/Classes/CircularCollectionViewLayout.swift:100-103 | with zero items `prepare` as written always traps on `0...-1`, while the corrected one yields an empty cache |
| `CircularLayout.PrepareKeepsShortCache` | Pod/Classes/CircularCollectionViewLayout.swift:100-101 | after one item is added, a cache built for the old count is kept, one entry short |
| `CircularLayout.LayoutAttributesForItem` | Pod/Classes/CircularCollectionViewLayout.swift:140-143 | a lookup succeeds exactly for rows inside the cache and, on an indexed cache, returns the entry describing that row |
| `CircularLayout.ItemLookupAfterRebuild` | Pod/Classes/CircularCollectionViewLayout.swift:103-107 | after a rebuild, the lookup for item `i` has index `i`, the configured size and the shared pivot |
| `VisibleRange.ComputeWindow` | Pod/Classes/CircularCollectionViewLayout.swift:117-128 | the window is defined exactly for a nonzero spacing; it always has start <= end; it falls back to (0, 0) exactly when the clamped end is below the start |
| `VisibleRange.RawStart` | Pod/Classes/CircularCollectionViewLayout.swift:117-122 | when the angle is not below `-theta` the start is 0; for a positive spacing below `-theta`, it is the last item whose angle is not above `-theta` (the next one is above it) |
| `VisibleRange.RawEnd` | Pod/Classes/CircularCollectionViewLayout.swift:118-124 | the end is at most the last item; for a positive spacing it is less than one spacing beyond `theta` and, unless it is the last item, it is the first item whose angle reaches `theta` |
| `VisibleRange.WindowBounds` | Pod/Classes/CircularCollectionViewLayout.swift:117-128 | for at least one item and a positive spacing, `0 <= start <= end <= n - 1` |
| `VisibleRange.WindowCoversVisibleItems` | Pod/Classes/CircularCollectionViewLayout.swift:115-128 | for a positive spacing, every item whose angle lies within `[-theta, theta]` is inside the window |
| `VisibleRange.WindowIsTight` | Pod/Classes/CircularCollectionViewLayout.swift:117-128 | for a positive spacing and apart from the fallback, every item in the window lies less than one spacing outside `[-theta, theta]` |
| `VisibleRange.Stamp` | Pod/Classes/CircularCollectionViewLayout.swift:133-135 | a stamped entry has the given center and angle and a consistent stacking order, and keeps its item, size and pivot |
| `VisibleRange.StampWindow` | Pod/Classes/CircularCollectionViewLayout.swift:132-136 | inside the window, entry `i` gets the shared center and the angle `angle + i * anglePerItem`; every entry outside the window is unchanged |
| `VisibleRange.WindowOf` | Pod/Classes/CircularCollectionViewLayout.swift:114-128 | the query's window exists exactly when the rotation and a nonzero spacing do; with at least one item and a positive spacing it lies within the items and contains every item whose angle at the current rotation is within `[-theta, theta]` |
| `VisibleRange.LayoutAttributesForElements` | Pod/Classes/CircularCollectionViewLayout.swift:112-138 | the query succeeds exactly when the window is defined and inside the cache; it returns `cache[start...end]` after stamping, leaves the entries outside the window and the configuration unchanged, and otherwise fails with the trap the code hits |
| `VisibleRange.VisibleInIndexOrder` | Pod/Classes/CircularCollectionViewLayout.swift:130-143 | on an indexed cache the visible entries come back in index order from `start`, centered and consistent, each equal to what `layoutAttributesForItem` returns for it afterwards |
| `VisibleRange.PrepareRebuildsEveryPass` | Pod/Classes/CircularCollectionViewLayout.swift:98-136 | after a rebuild and a stamping query, the next `prepare` as written rebuilds again: it returns exactly the cache of the previous pass, with every stamped angle back at 0 |
| `VisibleRange.QuerySucceedsOnBuiltCache` | Pod/Classes/CircularCollectionViewLayout.swift:117-137 | on a cache built for the current count, with at least one item, a positive spacing and content not as wide as the bounds, the query succeeds within the items |
| `VisibleRange.SingleItemQueryTraps` | Pod/Classes/CircularCollectionViewLayout.swift:100-137 | with exactly one item, an emptied cache passes the guard as written and the query then subscripts an empty list |
| `VisibleRange.NoItemsQueryTraps` | Pod/Classes/CircularCollectionViewLayout.swift:117-133 | with no items the end index is -1, the window falls back to (0, 0), and the query subscripts the empty cache left by the corrected `prepare` |
| `VisibleRange.LayoutPass` | Pod/Classes/CircularCollectionViewLayout.swift:98-138 | corrected pass: the corrected `prepare`, then the query, with an empty answer for no items; it fails if the rebuild fails and otherwise leaves exactly one cache entry per item |
| `VisibleRange.LayoutPassSucceeds` | Pod/Classes/CircularCollectionViewLayout.swift:98-138 | with the corrected `prepare`, a pass over any starting cache succeeds for one or more items, a positive spacing, a nonzero item height and content not as wide as the bounds |
| `VisibleRange.LayoutPassEmptyWithoutItems` | Pod/Classes/CircularCollectionViewLayout.swift:98-138 | with no items the corrected pass succeeds with no visible entries and an empty cache |
| `VisibleRange.InitialLayoutCannotAnswer` | Pod/Classes/CircularCollectionViewLayout.swift:85-124 | before any setter runs the spacing is 0, so no visible-elements query can be answered |
| `Snapping.Multiplier` | Pod/Classes/CircularCollectionViewLayout.swift:154-161 | a rightward fling rounds up, a leftward one rounds down, and zero velocity rounds to within one half |
| `Snapping.MultiplierExamples` | Pod/Classes/CircularCollectionViewLayout.swift:154-161 | ratio 2.1 with positive velocity gives 3; 2.9 with negative velocity gives 2; halfway cases at rest go away from zero |
| `Snapping.TargetContentOffset` | Pod/Classes/CircularCollectionViewLayout.swift:149-164 | a snap target exists exactly when the content is not as wide as the bounds, the spacing is nonzero and there are at least two items; the vertical offset is returned unchanged |
| `Snapping.Factor` | Pod/Classes/CircularCollectionViewLayout.swift:151 | the factor turns the whole scroll extent into `-angleAtExtreme`; it is 0 for fewer than two items and nonzero for two or more with a nonzero spacing |
| `Snapping.Ratio` | Pod/Classes/CircularCollectionViewLayout.swift:152-153 | the ratio is the proposed offset's angle measured in spacings |
| `Snapping.OffsetOf` | Pod/Classes/CircularCollectionViewLayout.swift:162 | the offset returned for `m` spacings turns the carousel by exactly `m` spacings |
| `Snapping.RatioInSteps` | Pod/Classes/CircularCollectionViewLayout.swift:151-153 | the ratio that gets rounded is the proposed offset measured in item steps `(contentWidth - boundsWidth)/(n-1)` |
| `Snapping.OffsetOfIsItemOffset` | Pod/Classes/CircularCollectionViewLayout.swift:151-162 | converting `m` spacings back to an offset gives exactly `m` item steps |
| `Snapping.EndItemsRestAtScrollEnds` | Pod/Classes/CircularCollectionViewLayout.swift:89-92 | the first item rests at offset 0 and the last at content width minus bounds width |
| `Snapping.ItemOffsetCentersItem` | Pod/Classes/CircularCollectionViewLayout.swift:73-75 | at the resting offset of item `k` the rotation puts item `k` at angle 0 |
| `Snapping.SnapRestsOnItem` | Pod/Classes/CircularCollectionViewLayout.swift:149-162 | every snap target is the resting offset of the item chosen by rounding the proposal, measured in steps, as the velocity directs |
| `Snapping.SnapCentersItem` | Pod/Classes/CircularCollectionViewLayout.swift:149-164 | scrolled to the snap target, the chosen item is at angle 0 |
| `Snapping.SnapDirection` | Pod/Classes/CircularCollectionViewLayout.swift:149-164 | with at least two items and content wider than the bounds, the target is a whole number of steps; a rightward fling does not end left of the proposal and a leftward one not right of it; at rest the target is within half a step |
| `Snapping.SnapIdempotent` | Pod/Classes/CircularCollectionViewLayout.swift:149-164 | snapping a target again, at any velocity, returns it unchanged |

## Left out

- UIKit plumbing is not modelled: subclassing `UICollectionViewLayout`, `invalidateLayout`, `layoutAttributesClass` and `shouldInvalidateLayout` (which always returns true). These framework hooks have no logic of their own.
- `BaseCircularCollectionViewCell.apply` and the rotation `transform` are not modelled. They are rendering side effects, and the transform is a function of `angle` alone.
- The `hash` override is not modelled. It mixes platform floating-point hash values.
- The arctangents are not evaluated. `anglePerItem` comes from a caller-supplied `spacing(width, radius)` and `theta` is a parameter, because Dafny's reals have no trigonometry.
- Floating-point rounding, overflow and the values infinity and NaN are not modelled. A division by zero becomes a `DivideByZero` failure even where IEEE arithmetic would go on.
- An `Int(...)` conversion of a huge finite value would trap in Swift. The model has no such trap, because integers are unbounded.
- The `collectionView!` force unwraps are not modelled. Without a collection view, `angleAtExtreme`, `angle`, `collectionViewContentSize`, `prepare`, `layoutAttributesForElements` and `targetContentOffset` trap; the setters and `layoutAttributesForItem` do not read it. The model always has a `View`.
- The rectangle passed to `layoutAttributesForElements(in:)` is not a parameter, because the code never reads it.
- Object identity and aliasing are not modelled. The Swift records are shared references that the query mutates; the model returns the updated cache as a value.
- `LayoutAttributes.IsEqual`: the inherited `super.isEqual` is approximated by equality of the inherited fields the model keeps (index, size, center, `zIndex`). UIKit's exact comparison is not visible.
- `VisibleRange.WindowBounds`: the bounds are proved only for a positive spacing. A negative spacing (negative radius) can make the start negative, and the query then reports `IndexOutOfRange`.
- `Snapping.SnapDirection`: the direction properties are stated only for content wider than the bounds. For narrower content the step is negative and the directions swap; the grid property still holds there (`Snapping.SnapRestsOnItem`).
- The demo screen (`Example/RJCircularCollectionViewLayout/CollectionViewController.swift`) is UI glue with no layout logic. It is not part of this model.

## Findings

| source | as written | input that shows it | evidently intended | confidence | as-written member | corrected member |
|---|---|---|---|---|---|---|
| Pod/Classes/CircularCollectionViewLayout.swift:100-101 | the cache is kept when its length equals the item count minus one | exactly one item after `itemSize` or `radius` was set: the empty cache is kept, the window is (0, 0), and `attributesList[0]` is out of range; likewise a count that grows from `m` to `m + 1` keeps a cache one entry short | rebuild when the cache length differs from the item count | high; not executed | `VisibleRange.SingleItemQueryTraps` (on `CircularLayout.Prepare`; also `CircularLayout.PrepareKeepsShortCache`) | `VisibleRange.LayoutPassSucceeds` (on `CircularLayout.PrepareCorrected`) |
| Pod/Classes/CircularCollectionViewLayout.swift:100-103 | with zero items the rebuild maps over `0...-1` | an item count of 0: the guard compares with -1, which no length equals, and forming `0...-1` traps | zero items give an empty cache | high; not executed | `CircularLayout.PrepareTrapsOnNoItems` (on `CircularLayout.Prepare`) | `CircularLayout.PrepareTrapsOnNoItems` (its last two ensures, on `CircularLayout.PrepareCorrected`) |
| Pod/Classes/CircularCollectionViewLayout.swift:117-133 | with no items the end index is -1, the window falls back to `(0, 0)`, and the loop reads `attributesList[0]` | an item count of 0, a positive spacing and nonzero bounds width, even after the cache is correctly emptied | no items give no visible attributes | high; not executed | `VisibleRange.NoItemsQueryTraps` (on `VisibleRange.LayoutAttributesForElements`) | `VisibleRange.LayoutPassEmptyWithoutItems` (on `VisibleRange.LayoutPass`) |

=== FILE: attributes.dfy ===
/** The per-item attribute record of the circular layout: where one item sits
    on the arc (its rotation `angle` about a pivot `anchorPoint`) and the
    stacking order derived from that angle. */
module LayoutAttributes {
  import opened Rounding
  import opened Geometry

  /** One item's attributes. `item` is the item's index path row; `zIndex`
      is kept equal to `ZIndexFor(angle)` by every operation that sets the
      angle (see `Consistent`). The rotation transform is a function of
      `angle` alone and is not stored. */
  datatype Attributes = Attributes(
    item: int,
    size: Size,
    center: Point,
    anchorPoint: Point,
    angle: real,
    zIndex: int)

  /** Scale from radians to stacking order. */
  const ZScale: real := 1000000.0

  /** Stacking order of an item at `angle`: `Int(angle * 1000000)`. */
  function ZIndexFor(angle: real): int {
    Truncate(angle * ZScale)
  }

  /** The record's stacking order is the one its angle prescribes. */
  predicate Consistent(a: Attributes) {
    a.zIndex == ZIndexFor(a.angle)
  }

  /** A freshly created record for item `i`: zero size and center, the
      default pivot (0.5, 0.5), angle 0 and stacking order 0. */
  function Fresh(i: int): (a: Attributes)
    ensures a.item == i && Consistent(a)
    ensures a.angle == 0.0 && a.zIndex == 0 && a.anchorPoint == Point(0.5, 0.5)
    ensures a.size == Size(0.0, 0.0) && a.center == Point(0.0, 0.0)
  {
    Attributes(i, Size(0.0, 0.0), Point(0.0, 0.0), Point(0.5, 0.5), 0.0, 0)
  }

  /** Assigning `angle`: the setter also re-derives the stacking order. */
  function WithAngle(a: Attributes, angle: real): (r: Attributes)
    ensures r.angle == angle && Consistent(r)
    ensures r.(angle := a.angle, zIndex := a.zIndex) == a
  {
    a.(angle := angle, zIndex := ZIndexFor(angle))
  }

  /** A larger angle never gets a lower stacking order, and the stacking
      order is never of the opposite sign to the angle. */
  lemma ZIndexMonotone(x: real, y: real)
    requires x <= y
    ensures ZIndexFor(x) <= ZIndexFor(y)
    ensures 0.0 <= x ==> 0 <= ZIndexFor(x)
    ensures y <= 0.0 ==> ZIndexFor(y) <= 0
  {
    TruncateMonotone(x * ZScale, y * ZScale);
  }

  /** `copy(with:)`: the base copy duplicates every inherited field, then the
      pivot and the angle are copied over (the angle through its setter). */
  function Copy(a: Attributes): (r: Attributes)
    ensures r.angle == a.angle && r.anchorPoint == a.anchorPoint
    ensures r.item == a.item && r.size == a.size && r.center == a.center
    ensures Consistent(r)
    ensures Consistent(a) <==> r == a
  {
    WithAngle(a, a.angle)
  }

  /** What `isEqual` can be handed: nothing, an object of another class, or
      another circular attribute record. */
  datatype Object = Nil | Foreign | Circular(attributes: Attributes)

  /** The inherited comparison, restricted to the inherited fields the model
      keeps: index, size, center and stacking order. */
  predicate BaseEqual(a: Attributes, b: Attributes) {
    a.item == b.item && a.size == b.size && a.center == b.center && a.zIndex == b.zIndex
  }

  /** `isEqual`: false for nil and for other classes, false when the angle or
      the pivot differ, otherwise the inherited comparison. */
  function IsEqual(a: Attributes, o: Object): (r: bool)
    ensures o.Nil? || o.Foreign? ==> !r
    ensures o.Circular? && o.attributes.angle != a.angle ==> !r
    ensures o.Circular? && o.attributes.anchorPoint != a.anchorPoint ==> !r
    ensures r <==> o == Circular(a)
  {
    match o
    case Nil => false
    case Foreign => false
    case Circular(b) =>
      if b.angle != a.angle || b.anchorPoint != a.anchorPoint then false
      else BaseEqual(a, b)
  }

  /** Equality is symmetric between two records. */
  lemma IsEqualSymmetric(a: Attributes, b: Attributes)
    ensures IsEqual(a, Circular(b)) == IsEqual(b, Circular(a))
  {
  }

  /** A record whose stacking order matches its angle equals its copy, in
      both directions. */
  lemma CopyIsEqual(a: Attributes)
    requires Consistent(a)
    ensures IsEqual(a, Circular(Copy(a)))
    ensures IsEqual(Copy(a), Circular(a))
  {
  }
}

=== FILE: geometry.dfy ===
/** Plane geometry values (CGPoint, CGSize, CGRect) over exact reals, and the
    outcome type for the places where the Swift code would trap or divide by
    zero. */
module Geometry {

  datatype Point = Point(x: real, y: real)

  datatype Size = Size(width: real, height: real)

  datatype Rect = Rect(origin: Point, size: Size) {
    /** `midY` of a rectangle with non-negative height. */
    function MidY(): real {
      origin.y + size.height / 2.0
    }
  }

  /** Why an operation has no real-valued answer. */
  datatype Fault =
      /** A floating-point division by zero: IEEE arithmetic would go on with
          an infinity or NaN, which the model does not represent. */
    | DivideByZero
      /** The closed range `0...k` with `k < 0`, a runtime trap in Swift. */
    | EmptyClosedRange
      /** An array subscript outside the array, a runtime trap in Swift. */
    | IndexOutOfRange

  datatype Result<+T> = Success(value: T) | Failure(error: Fault)
}

=== FILE: layout.dfy ===
/** The state of the circular layout and the operations that do not depend on
    the visible window: the configuration setters, the scroll-to-angle map,
    the content size, the rebuild of the attribute cache (`prepare`) and the
    single-item lookup. */
module CircularLayout {
  import opened Geometry
  import opened LayoutAttributes

  /** The configuration and the angular spacing derived from it. */
  datatype Config = Config(itemSize: Size, radius: real, anglePerItem: real)

  /** The layout's state: its configuration and the cached attribute list
      (entry `i` describes item `i`). */
  datatype Layout = Layout(config: Config, attributesList: seq<Attributes>)

  /** What the layout reads from its collection view: the item count of
      section 0, the scroll offset and the bounds. */
  datatype View = View(itemCount: nat, contentOffset: Point, bounds: Rect)

  /** The state before any setter has run: the property initialisers give a
      150 x 150 item and radius 500 but do not run the observers, so the
      angular spacing is still 0 and the cache is empty. */
  const Initial: Layout := Layout(Config(Size(150.0, 150.0), 500.0, 0.0), [])

  /** `spacing(width, radius)` stands for `atan(width / radius)` as the
      platform evaluates it; the arctangent is supplied by the caller. */
  type Spacing = (real, real) -> real

  /** Setting `itemSize`: the spacing is recomputed from the new width and the
      current radius, and the cache is emptied. */
  function SetItemSize(l: Layout, s: Size, spacing: Spacing): (r: Layout)
    ensures r.config.itemSize == s && r.config.radius == l.config.radius
    ensures r.config.anglePerItem == spacing(s.width, l.config.radius)
    ensures r.attributesList == []
  {
    Layout(Config(s, l.config.radius, spacing(s.width, l.config.radius)), [])
  }

  /** Setting `radius`: the spacing is recomputed from the current width and
      the new radius, and the cache is emptied. */
  function SetRadius(l: Layout, radius: real, spacing: Spacing): (r: Layout)
    ensures r.config.itemSize == l.config.itemSize && r.config.radius == radius
    ensures r.config.anglePerItem == spacing(l.config.itemSize.width, radius)
    ensures r.attributesList == []
  {
    Layout(Config(l.config.itemSize, radius, spacing(l.config.itemSize.width, radius)), [])
  }

  /** The spacing depends only on the final (size, radius) pair, not on the
      order in which the two setters ran. */
  lemma SettersCommute(l: Layout, s: Size, radius: real, spacing: Spacing)
    ensures SetRadius(SetItemSize(l, s, spacing), radius, spacing)
         == SetItemSize(SetRadius(l, radius, spacing), s, spacing)
  {
  }

  /** `angleAtExtreme`: the rotation that brings the last item to angle 0. */
  function AngleAtExtreme(c: Config, n: nat): (r: real)
    ensures n == 0 ==> r == 0.0
    ensures n > 0 ==> r + (n - 1) as real * c.anglePerItem == 0.0
    ensures 0.0 <= c.anglePerItem ==> r <= 0.0
  {
    if n > 0 then -((n - 1) as real) * c.anglePerItem else 0.0
  }

  /** `collectionViewContentSize`: one item width per item, and the height of
      the bounds. */
  function ContentSize(c: Config, v: View): (r: Size)
    ensures r.width == v.itemCount as real * c.itemSize.width
    ensures r.height == v.bounds.size.height
    ensures 0.0 <= c.itemSize.width ==> 0.0 <= r.width
  {
    Size(v.itemCount as real * c.itemSize.width, v.bounds.size.height)
  }

  /** How far the content can scroll: content width minus bounds width. */
  function ScrollExtent(c: Config, v: View): real {
    ContentSize(c, v).width - v.bounds.size.width
  }

  /** `angle`: the global rotation, linear in the horizontal scroll offset.
      It has no value when the content is exactly as wide as the bounds. */
  function Angle(c: Config, v: View): (r: Result<real>)
    ensures r.Success? <==> ScrollExtent(c, v) != 0.0
    ensures r.Failure? ==> r.error == DivideByZero
    ensures r.Success? && v.contentOffset.x == 0.0 ==> r.value == 0.0
    ensures r.Success? && v.contentOffset.x == ScrollExtent(c, v) ==>
              r.value == AngleAtExtreme(c, v.itemCount)
  {
    var extent := ScrollExtent(c, v);
    if extent == 0.0 then Failure(DivideByZero)
    else Success(Rate(AngleAtExtreme(c, v.itemCount), v.contentOffset.x, extent))
  }

  /** `k * x / d`: the offset `x` as a fraction of `d`, times `k`. */
  function Rate(k: real, x: real, d: real): real
    requires d != 0.0
  {
    k * x / d
  }

  /** Two views that differ only in their scroll offset. */
  predicate SameButOffset(v: View, w: View) {
    v.itemCount == w.itemCount && v.bounds == w.bounds
  }

  /** Scrolling further right never increases the rotation, provided the
      content is wider than the bounds and the spacing is non-negative. */
  lemma AngleNonIncreasing(c: Config, v: View, w: View)
    requires SameButOffset(v, w)
    requires ScrollExtent(c, v) > 0.0 && 0.0 <= c.anglePerItem
    requires v.contentOffset.x <= w.contentOffset.x
    ensures Angle(c, v).Success? && Angle(c, w).Success?
    ensures Angle(c, w).value <= Angle(c, v).value
  {
    var k := AngleAtExtreme(c, v.itemCount);
    var d := ScrollExtent(c, v);
    ExtentIgnoresOffset(c, v, w);
    AngleIsRate(c, v, k, d);
    AngleIsRate(c, w, k, d);
    ScaledOffsetMonotone(k, v.contentOffset.x, w.contentOffset.x, d);
  }

  /** The scroll extent does not depend on the scroll offset. */
  lemma ExtentIgnoresOffset(c: Config, v: View, w: View)
    requires SameButOffset(v, w)
    ensures AngleAtExtreme(c, w.itemCount) == AngleAtExtreme(c, v.itemCount)
    ensures ScrollExtent(c, w) == ScrollExtent(c, v)
  {
    assert ContentSize(c, w) == ContentSize(c, v);
  }

  /** The rotation is the offset scaled by `angleAtExtreme / extent`. */
  lemma AngleIsRate(c: Config, v: View, k: real, d: real)
    requires k == AngleAtExtreme(c, v.itemCount) && d == ScrollExtent(c, v) && d != 0.0
    ensures Angle(c, v) == Success(Rate(k, v.contentOffset.x, d))
  {
  }

  /** The angle of item `i` when the global rotation is `angle`. */
  function SlotAngle(angle: real, i: int, step: real): real {
    angle + i as real * step
  }

  /** At the far right of the scroll range the last item is at angle 0; at
      the far left the first item is. */
  lemma ExtremesCenterEndItems(c: Config, v: View)
    requires v.itemCount >= 1 && ScrollExtent(c, v) != 0.0
    ensures v.contentOffset.x == ScrollExtent(c, v) ==>
              SlotAngle(Angle(c, v).value, v.itemCount - 1, c.anglePerItem) == 0.0
    ensures v.contentOffset.x == 0.0 ==> SlotAngle(Angle(c, v).value, 0, c.anglePerItem) == 0.0
  {
  }

  lemma NonPositiveTimesNonNegative(a: real, b: real)
    requires a <= 0.0 && 0.0 <= b
    ensures a * b <= 0.0
  {
  }

  lemma DivideMonotone(a: real, b: real, d: real)
    requires a <= b && d > 0.0
    ensures a / d <= b / d
  {
    assert (b / d - a / d) * d == b - a;
  }

  /** A non-positive rate applied to a larger offset gives a smaller value. */
  lemma ScaledOffsetMonotone(k: real, x: real, y: real, d: real)
    requires k <= 0.0 && x <= y && d > 0.0
    ensures Rate(k, y, d) <= Rate(k, x, d)
  {
    NonPositiveTimesNonNegative(k, y - x);
    assert k * y - k * x == k * (y - x);
    DivideMonotone(k * y, k * x, d);
  }

  /** The shared pivot of every item: horizontally centered, and
      `radius` below the item's vertical center, in item-height units. */
  function Anchor(c: Config): Point
    requires c.itemSize.height != 0.0
  {
    Point(0.5, (c.itemSize.height / 2.0 + c.radius) / c.itemSize.height)
  }

  /** The rebuilt entry for item `i`. */
  function Entry(c: Config, i: int): Attributes
    requires c.itemSize.height != 0.0
  {
    Fresh(i).(size := c.itemSize, anchorPoint := Anchor(c))
  }

  /** The cache holds exactly one freshly built entry per item, in order. */
  predicate IsBuilt(l: Layout, n: nat) {
    |l.attributesList| == n &&
    (n == 0 || (l.config.itemSize.height != 0.0 &&
                forall i | 0 <= i < n :: l.attributesList[i] == Entry(l.config, i)))
  }

  /** Entry `i` of the cache describes item `i`. */
  predicate Indexed(list: seq<Attributes>) {
    forall i | 0 <= i < |list| :: list[i].item == i
  }

  /** Every entry's stacking order matches its angle. */
  predicate AllConsistent(list: seq<Attributes>) {
    forall i | 0 <= i < |list| :: Consistent(list[i])
  }

  /** A built cache is indexed and consistent. */
  lemma BuiltIsIndexed(l: Layout, n: nat)
    requires IsBuilt(l, n)
    ensures Indexed(l.attributesList) && AllConsistent(l.attributesList)
  {
  }

  /** A fresh cache of `n` entries for the current configuration. */
  function Rebuild(l: Layout, n: nat): (r: Layout)
    requires l.config.itemSize.height != 0.0
    ensures IsBuilt(r, n)
    ensures r.config == l.config
  {
    l.(attributesList := seq(n, i requires 0 <= i < n => Entry(l.config, i)))
  }

  /** `prepare` as written: the cache is kept when its length equals the
      item count minus one, and otherwise rebuilt over the closed range
      `0...count-1`, which traps when there are no items. */
  function Prepare(l: Layout, n: nat): (r: Result<Layout>)
    ensures |l.attributesList| == n - 1 ==> r == Success(l)
    ensures n == 0 ==> r == Failure(EmptyClosedRange)
    ensures |l.attributesList| != n - 1 ==>
              (r.Success? <==> n >= 1 && l.config.itemSize.height != 0.0)
    ensures |l.attributesList| != n - 1 && r.Success? ==>
              IsBuilt(r.value, n) && |r.value.attributesList| != n - 1
    ensures r.Success? ==> r.value.config == l.config
  {
    var totalItems := n - 1;
    if |l.attributesList| == totalItems then Success(l)
    else if totalItems < 0 then Failure(EmptyClosedRange)
    else if l.config.itemSize.height == 0.0 then Failure(DivideByZero)
    else Success(Rebuild(l, n))
  }

  /** `prepare` as evidently intended: the cache is rebuilt exactly when its
      length differs from the item count, and zero items give an empty
      cache. */
  function PrepareCorrected(l: Layout, n: nat): (r: Result<Layout>)
    ensures |l.attributesList| == n ==> r == Success(l)
    ensures r.Success? <==> |l.attributesList| == n || n == 0 || l.config.itemSize.height != 0.0
    ensures r.Success? ==> |r.value.attributesList| == n
    ensures r.Success? && |l.attributesList| != n ==> IsBuilt(r.value, n)
    ensures r.Success? ==> r.value.config == l.config
  {
    if |l.attributesList| == n then Success(l)
    else if n == 0 then Success(l.(attributesList := []))
    else if l.config.itemSize.height == 0.0 then Failure(DivideByZero)
    else Success(Rebuild(l, n))
  }

  /** A second corrected `prepare` with the same item count does nothing. */
  lemma PrepareCorrectedIdempotent(l: Layout, n: nat)
    requires PrepareCorrected(l, n).Success?
    ensures PrepareCorrected(PrepareCorrected(l, n).value, n) == PrepareCorrected(l, n)
  {
  }

  /** For at least one item, whenever the cache length is neither the count
      nor the count minus one, both versions agree. */
  lemma PrepareCorrectedAgreesOffGuard(l: Layout, n: nat)
    requires n >= 1
    requires |l.attributesList| != n && |l.attributesList| != n - 1
    ensures Prepare(l, n) == PrepareCorrected(l, n)
  {
  }

  /** With no items `prepare` always traps: the guard compares with -1,
      which no length equals, and `0...-1` is not a range. */
  lemma PrepareTrapsOnNoItems(l: Layout)
    ensures Prepare(l, 0) == Failure(EmptyClosedRange)
    ensures PrepareCorrected(l, 0).Success?
    ensures PrepareCorrected(l, 0).value.attributesList == []
  {
  }

  /** When the item count grows by one, the cache built for the old count
      passes the guard and is kept one entry short. */
  lemma PrepareKeepsShortCache(l: Layout, m: nat)
    requires IsBuilt(l, m)
    ensures Prepare(l, m + 1) == Success(l)
    ensures |Prepare(l, m + 1).value.attributesList| == m
    ensures PrepareCorrected(l, m + 1).Success? ==>
              |PrepareCorrected(l, m + 1).value.attributesList| == m + 1
  {
  }

  /** `layoutAttributesForItem(at:)`: the cached entry for row `i`. */
  function LayoutAttributesForItem(l: Layout, i: int): (r: Result<Attributes>)
    ensures r.Success? <==> 0 <= i < |l.attributesList|
    ensures r.Failure? ==> r.error == IndexOutOfRange
    ensures r.Success? && Indexed(l.attributesList) ==> r.value.item == i
  {
    if 0 <= i < |l.attributesList| then Success(l.attributesList[i])
    else Failure(IndexOutOfRange)
  }

  /** After a rebuild every item's lookup gives its own index, the configured
      size and the shared pivot. */
  lemma ItemLookupAfterRebuild(l: Layout, n: nat, i: int)
    requires IsBuilt(l, n) && 0 <= i < n
    ensures LayoutAttributesForItem(l, i).Success?
    ensures LayoutAttributesForItem(l, i).value.item == i
    ensures LayoutAttributesForItem(l, i).value.size == l.config.itemSize
    ensures LayoutAttributesForItem(l, i).value.anchorPoint == Anchor(l.config)
  {
    assert l.attributesList[i] == Entry(l.config, i);
  }
}

=== FILE: rounding.dfy ===
/** Integer rounding of reals as the layout code uses it: `floor`, `ceil` and
    `round` on CGFloat, and the truncating `Int(...)` conversion. Values are
    exact reals; IEEE rounding, infinities and NaN are not represented here. */
module Rounding {

  /** `floor`: the greatest integer not above `x`. */
  function Floor(x: real): (r: int)
    ensures r as real <= x < r as real + 1.0
  {
    x.Floor
  }

  /** `ceil`: the least integer not below `x`. */
  function Ceil(x: real): (r: int)
    ensures x <= r as real < x + 1.0
  {
    -((-x).Floor)
  }

  /** Swift's `Int(x)` on a floating-point value: truncation toward zero. */
  function Truncate(x: real): (r: int)
    ensures 0.0 <= x ==> 0 <= r && r as real <= x < r as real + 1.0
    ensures x < 0.0 ==> r <= 0 && r as real - 1.0 < x <= r as real
  {
    if 0.0 <= x then x.Floor else -((-x).Floor)
  }

  /** `round`: nearest integer, halfway cases away from zero. */
  function RoundHalfAway(x: real): (r: int)
    ensures x - 0.5 <= r as real <= x + 0.5
    ensures 0.0 <= x ==> x - 0.5 < r as real
    ensures x < 0.0 ==> r as real < x + 0.5
  {
    if 0.0 <= x then (x + 0.5).Floor else -((-x + 0.5).Floor)
  }

  /** Truncation never reverses the order of its arguments. */
  lemma TruncateMonotone(x: real, y: real)
    requires x <= y
    ensures Truncate(x) <= Truncate(y)
  {
    if 0.0 <= x {
    } else if y < 0.0 {
      assert (-y).Floor <= (-x).Floor;
    } else {
    }
  }

  /** Every rounding mode leaves an integer where it is. */
  lemma RoundingFixesIntegers(k: int)
    ensures Floor(k as real) == k
    ensures Ceil(k as real) == k
    ensures RoundHalfAway(k as real) == k
  {
  }
}

=== FILE: snapping.dfy ===
/** `targetContentOffset(forProposedContentOffset:withScrollingVelocity:)`:
    where a scroll comes to rest. The proposed offset is turned into an
    angle, measured in item spacings, rounded to a whole number of items in
    the direction of the velocity, and turned back into an offset. */
module Snapping {
  import opened Rounding
  import opened Geometry
  import opened CircularLayout

  /** The whole number of items to rest on: up for a rightward fling, down
      for a leftward one, to the nearest (halves away from zero) at rest. */
  function Multiplier(ratio: real, velocity: real): (m: int)
    ensures velocity > 0.0 ==> ratio <= m as real < ratio + 1.0
    ensures velocity < 0.0 ==> ratio - 1.0 < m as real <= ratio
    ensures velocity == 0.0 ==> ratio - 0.5 <= m as real <= ratio + 0.5
  {
    if velocity > 0.0 then Ceil(ratio)
    else if velocity < 0.0 then Floor(ratio)
    else RoundHalfAway(ratio)
  }

  /** The rounding modes on the values a fling can produce, halfway cases
      included. */
  lemma MultiplierExamples()
    ensures Multiplier(2.1, 1.0) == 3 && Multiplier(2.0, 1.0) == 2
    ensures Multiplier(2.9, -1.0) == 2 && Multiplier(-2.1, -1.0) == -3
    ensures Multiplier(2.5, 0.0) == 3 && Multiplier(-2.5, 0.0) == -3
    ensures Multiplier(2.4, 0.0) == 2
  {
  }

  /** The target offset. The horizontal component is replaced, the vertical
      one is returned as proposed. There is no answer when the content is
      exactly as wide as the bounds, when the spacing is 0, or when there
      are fewer than two items (the conversion factor is then 0 and the last
      step divides by it). */
  function TargetContentOffset(c: Config, v: View, proposed: Point, velocity: Point): (r: Result<Point>)
    ensures r.Success? <==>
              ScrollExtent(c, v) != 0.0 && c.anglePerItem != 0.0 && v.itemCount >= 2
    ensures r.Failure? ==> r.error == DivideByZero
    ensures r.Success? ==> r.value.y == proposed.y
  {
    if ScrollExtent(c, v) == 0.0 || c.anglePerItem == 0.0 then Failure(DivideByZero)
    else
      var multiplier := Multiplier(Ratio(c, v, proposed.x), velocity.x);
      if Factor(c, v) == 0.0 then Failure(DivideByZero)
      else Success(proposed.(x := OffsetOf(c, v, multiplier)))
  }

  /** The offset whose angle is `m` item spacings: scrolled that far, the
      rotation changes by `m * anglePerItem`. */
  function OffsetOf(c: Config, v: View, m: int): (r: real)
    requires ScrollExtent(c, v) != 0.0 && Factor(c, v) != 0.0
    ensures r * Factor(c, v) == m as real * c.anglePerItem
  {
    m as real * c.anglePerItem / Factor(c, v)
  }

  /** Radians of rotation per point of scrolling: scrolling the whole extent
      turns the carousel by `-angleAtExtreme`. With at least two items and a
      nonzero spacing the factor is nonzero; with fewer items it is 0. */
  function Factor(c: Config, v: View): (f: real)
    requires ScrollExtent(c, v) != 0.0
    ensures f * ScrollExtent(c, v) + AngleAtExtreme(c, v.itemCount) == 0.0
    ensures v.itemCount <= 1 ==> f == 0.0
    ensures v.itemCount >= 2 && c.anglePerItem != 0.0 ==> f != 0.0
  {
    var k := AngleAtExtreme(c, v.itemCount);
    var e := ScrollExtent(c, v);
    assert v.itemCount <= 1 ==> k == 0.0;
    QuotientTimes(-k, e);
    -k / e
  }

  /** The proposed offset's angle, in item spacings. */
  function Ratio(c: Config, v: View, x: real): (r: real)
    requires ScrollExtent(c, v) != 0.0 && c.anglePerItem != 0.0
    ensures r * c.anglePerItem == x * Factor(c, v)
  {
    var y := x * Factor(c, v);
    QuotientTimes(y, c.anglePerItem);
    y / c.anglePerItem
  }

  /** The scroll distance between two neighbouring items' resting offsets. */
  function Step(c: Config, v: View): real
    requires v.itemCount >= 2
  {
    ScrollExtent(c, v) / (v.itemCount - 1) as real
  }

  /** The resting offset of item `k`. */
  function ItemOffset(c: Config, v: View, k: int): real
    requires v.itemCount >= 2
  {
    k as real * Step(c, v)
  }

  lemma QuotientTimes(x: real, d: real)
    requires d != 0.0
    ensures x / d * d == x
  {
  }

  /** Dividing a product by one of its factors. */
  lemma QuotientOfProduct(x: real, d: real, y: real)
    requires d != 0.0 && x * d == y
    ensures y / d == x
  {
  }

  /** Cancelling a nonzero factor. */
  lemma Cancel(x: real, y: real, d: real)
    requires d != 0.0 && x * d == y * d
    ensures x == y
  {
    assert (x - y) * d == 0.0;
  }

  /** The factor times the step is the spacing. */
  lemma FactorTimesStep(f: real, n1: real, a: real, e: real, q: real)
    requires n1 > 0.0 && f * e == n1 * a && q == e / n1
    ensures f * q == a
  {
    assert q * n1 == e;
    assert (f * q) * n1 == f * e;
    Cancel(f * q, a, n1);
  }

  /** With `f * e == n1 * a`, an offset measured in spacings through the
      factor is the same offset measured in steps `e / n1`. */
  lemma RatioIsOffsetInSteps(px: real, r: real, f: real, n1: real, a: real, e: real)
    requires n1 > 0.0 && a != 0.0 && e != 0.0
    requires f * e == n1 * a && r * a == px * f
    ensures r == px / (e / n1)
  {
    var q := e / n1;
    FactorTimesStep(f, n1, a, e, q);
    assert r * q * a == px * a by {
      assert r * q * a == (r * a) * q;
      assert (px * f) * q == px * (f * q);
    }
    Cancel(r * q, px, a);
    assert q != 0.0;
    QuotientOfProduct(r, q, px);
  }

  /** With `f * e == n1 * a`, `m` spacings converted through the factor are
      `m` steps `e / n1`. */
  lemma OffsetIsMultipleOfStep(o: real, m: real, f: real, n1: real, a: real, e: real)
    requires n1 > 0.0 && f != 0.0
    requires f * e == n1 * a && o * f == m * a
    ensures o == m * (e / n1)
  {
    var q := e / n1;
    FactorTimesStep(f, n1, a, e, q);
    var x := m * q;
    assert x * f == m * a by {
      assert x * f == m * (f * q);
    }
    Cancel(o, x, f);
  }

  /** The factor scales the scroll extent to `(n - 1)` spacings. */
  lemma FactorSpansItems(c: Config, v: View)
    requires v.itemCount >= 2 && ScrollExtent(c, v) != 0.0
    ensures Factor(c, v) * ScrollExtent(c, v) == (v.itemCount - 1) as real * c.anglePerItem
  {
  }

  /** Measured in steps, the ratio is the proposed offset over the step. */
  lemma RatioInSteps(c: Config, v: View, x: real)
    requires v.itemCount >= 2 && ScrollExtent(c, v) != 0.0 && c.anglePerItem != 0.0
    ensures Ratio(c, v, x) == x / Step(c, v)
  {
    var n1 := (v.itemCount - 1) as real;
    FactorSpansItems(c, v);
    RatioIsOffsetInSteps(x, Ratio(c, v, x), Factor(c, v), n1, c.anglePerItem, ScrollExtent(c, v));
  }

  /** Converting `m` spacings back to an offset gives the resting offset of
      item `m`. */
  lemma OffsetOfIsItemOffset(c: Config, v: View, m: int)
    requires v.itemCount >= 2 && ScrollExtent(c, v) != 0.0 && c.anglePerItem != 0.0
    ensures Factor(c, v) != 0.0
    ensures OffsetOf(c, v, m) == ItemOffset(c, v, m)
  {
    var n1 := (v.itemCount - 1) as real;
    FactorSpansItems(c, v);
    OffsetIsMultipleOfStep(OffsetOf(c, v, m), m as real, Factor(c, v), n1, c.anglePerItem, ScrollExtent(c, v));
  }

  /** The first item rests at offset 0 and the last at the far end of the
      scroll range, so the item offsets span the content width less the
      bounds width. */
  lemma EndItemsRestAtScrollEnds(c: Config, v: View)
    requires v.itemCount >= 2
    ensures ItemOffset(c, v, 0) == 0.0
    ensures ItemOffset(c, v, v.itemCount - 1) == ContentSize(c, v).width - v.bounds.size.width
  {
    var n1 := (v.itemCount - 1) as real;
    QuotientTimes(ScrollExtent(c, v), n1);
  }

  /** At the resting offset of item `k` the rotation puts item `k` at angle
      0, the middle of the visible arc. */
  lemma ItemOffsetCentersItem(c: Config, v: View, k: int)
    requires v.itemCount >= 2 && ScrollExtent(c, v) != 0.0
    requires v.contentOffset.x == ItemOffset(c, v, k)
    ensures Angle(c, v).Success?
    ensures SlotAngle(Angle(c, v).value, k, c.anglePerItem) == 0.0
  {
    var n1 := (v.itemCount - 1) as real;
    var z, e := AngleAtExtreme(c, v.itemCount), ScrollExtent(c, v);
    AngleIsRate(c, v, z, e);
    RotationAtStep(z, n1, c.anglePerItem, e, k as real, v.contentOffset.x);
  }

  /** `k` steps `e / n1` scaled by `z / e`, where `z = -n1 * a`, are `-k`
      spacings `a`. */
  lemma RotationAtStep(z: real, n1: real, a: real, e: real, k: real, x: real)
    requires n1 > 0.0 && e != 0.0 && z + n1 * a == 0.0 && x == k * (e / n1)
    ensures Rate(z, x, e) + k * a == 0.0
  {
    var q := e / n1;
    assert q * n1 == e;
    var y := -(a * k);
    assert z * x == y * e by {
      assert z * x == -(n1 * a) * (k * q);
      assert -(n1 * a) * (k * q) == y * (q * n1);
    }
    QuotientOfProduct(y, e, z * x);
  }

  /** A successful snap rests on an item: the result is `m` steps, where `m`
      is the proposed offset measured in steps and rounded as the velocity
      directs. */
  lemma SnapRestsOnItem(c: Config, v: View, proposed: Point, velocity: Point)
    requires v.itemCount >= 2 && ScrollExtent(c, v) != 0.0 && c.anglePerItem != 0.0
    ensures TargetContentOffset(c, v, proposed, velocity).Success?
    ensures TargetContentOffset(c, v, proposed, velocity).value.x
         == ItemOffset(c, v, Multiplier(proposed.x / Step(c, v), velocity.x))
  {
    RatioInSteps(c, v, proposed.x);
    var m := Multiplier(Ratio(c, v, proposed.x), velocity.x);
    OffsetOfIsItemOffset(c, v, m);
  }

  /** After a snap the chosen item is at angle 0: scrolled to the target,
      the carousel shows item `m` in the middle of the visible arc. */
  lemma SnapCentersItem(c: Config, v: View, proposed: Point, velocity: Point)
    requires v.itemCount >= 2 && ScrollExtent(c, v) != 0.0 && c.anglePerItem != 0.0
    ensures TargetContentOffset(c, v, proposed, velocity).Success?
    ensures var w := v.(contentOffset := TargetContentOffset(c, v, proposed, velocity).value);
            Angle(c, w).Success? &&
            SlotAngle(Angle(c, w).value, Multiplier(proposed.x / Step(c, v), velocity.x), c.anglePerItem) == 0.0
  {
    SnapRestsOnItem(c, v, proposed, velocity);
    var m := Multiplier(proposed.x / Step(c, v), velocity.x);
    var w := v.(contentOffset := TargetContentOffset(c, v, proposed, velocity).value);
    ExtentIgnoresOffset(c, v, w);
    assert Step(c, w) == Step(c, v);
    ItemOffsetCentersItem(c, w, m);
  }

  /** Scaling by a positive step keeps order: if `q <= m` then
      `q * s <= m * s`. */
  lemma ScaleLower(m: real, q: real, s: real)
    requires q <= m && s > 0.0
    ensures q * s <= m * s
  {
    assert (m - q) * s >= 0.0;
  }

  /** Rounding `q` to within half of it and scaling back by `s` stays within
      half a step of `q * s`. */
  lemma ScaledHalf(px: real, s: real, q: real, m: real, x: real)
    requires s > 0.0 && q * s == px && x == m * s
    requires q - 0.5 <= m <= q + 0.5
    ensures px - s / 2.0 <= x <= px + s / 2.0
  {
    var d := m - q;
    assert x - px == d * s by {
      assert d * s == m * s - q * s;
    }
    ScaleLower(d, -0.5, s);
    ScaleLower(0.5, d, s);
  }

  /** With at least two items and content wider than the bounds, the result
      is a whole number of steps; a rightward fling never rests left of the
      proposal, a leftward one never right of it, and without velocity the
      result is within half a step of the proposal. */
  lemma SnapDirection(c: Config, v: View, proposed: Point, velocity: Point)
    requires v.itemCount >= 2 && ScrollExtent(c, v) > 0.0 && c.anglePerItem > 0.0
    ensures TargetContentOffset(c, v, proposed, velocity).Success?
    ensures exists k :: TargetContentOffset(c, v, proposed, velocity).value.x == ItemOffset(c, v, k)
    ensures velocity.x > 0.0 ==> proposed.x <= TargetContentOffset(c, v, proposed, velocity).value.x
    ensures velocity.x < 0.0 ==> TargetContentOffset(c, v, proposed, velocity).value.x <= proposed.x
    ensures velocity.x == 0.0 ==>
              proposed.x - Step(c, v) / 2.0 <= TargetContentOffset(c, v, proposed, velocity).value.x
                                            <= proposed.x + Step(c, v) / 2.0
  {
    var s := Step(c, v);
    assert s > 0.0;
    var m := Multiplier(proposed.x / s, velocity.x);
    var x := TargetContentOffset(c, v, proposed, velocity).value.x;
    SnapRestsOnItem(c, v, proposed, velocity);
    assert x == ItemOffset(c, v, m);
    var q := proposed.x / s;
    assert q * s == proposed.x;
    assert x == m as real * s;
    if velocity.x > 0.0 {
      ScaleLower(m as real, q, s);
    } else if velocity.x < 0.0 {
      ScaleLower(q, m as real, s);
    } else {
      ScaledHalf(proposed.x, s, q, m as real, x);
    }
  }

  /** Snapping an offset that already rests on an item returns it unchanged,
      whatever the velocity; in particular snapping at rest is idempotent. */
  lemma SnapIdempotent(c: Config, v: View, proposed: Point, velocity: Point, again: Point)
    requires v.itemCount >= 2 && ScrollExtent(c, v) != 0.0 && c.anglePerItem != 0.0
    ensures TargetContentOffset(c, v, proposed, velocity).Success?
    ensures TargetContentOffset(c, v, TargetContentOffset(c, v, proposed, velocity).value, again)
         == TargetContentOffset(c, v, proposed, velocity)
  {
    var p := TargetContentOffset(c, v, proposed, velocity).value;
    var s := Step(c, v);
    var m := Multiplier(proposed.x / s, velocity.x);
    SnapRestsOnItem(c, v, proposed, velocity);
    assert s != 0.0;
    QuotientOfProduct(m as real, s, p.x);
    RoundingFixesIntegers(m);
    assert Multiplier(p.x / s, again.x) == m;
    SnapRestsOnItem(c, v, p, again);
    assert TargetContentOffset(c, v, p, again).value == p;
  }
}

=== FILE: window.dfy ===
/** `layoutAttributesForElements(in:)`: the contiguous window of items whose
    angle falls within the visible half-aperture `theta` around the current
    rotation, and the stamping of angle and center onto the cached entries
    in that window. */
module VisibleRange {
  import opened Rounding
  import opened Geometry
  import opened LayoutAttributes
  import opened CircularLayout

  /** The closed index range `start...end`. */
  datatype Window = Window(start: int, end: int)

  function Min(a: int, b: int): int {
    if a <= b then a else b
  }

  /** The first index before clamping. When the rotation is below `-theta`
      it is the last item whose angle is not above `-theta`, otherwise 0. */
  function RawStart(angle: real, theta: real, step: real): (r: int)
    requires step != 0.0
    ensures !(angle < -theta) ==> r == 0
    ensures step > 0.0 && angle < -theta ==>
              0 <= r && SlotAngle(angle, r, step) <= -theta < SlotAngle(angle, r + 1, step)
  {
    if angle < -theta then
      FloorSlot(-theta - angle, step);
      Floor((-theta - angle) / step)
    else 0
  }

  /** The last index before the fallback: the last item, or else the first
      item whose angle reaches `theta`. */
  function RawEnd(n: int, angle: real, theta: real, step: real): (r: int)
    requires step != 0.0
    ensures r <= n - 1
    ensures step > 0.0 ==> SlotAngle(angle, r, step) < theta + step
    ensures step > 0.0 && r < n - 1 ==>
              SlotAngle(angle, r - 1, step) < theta <= SlotAngle(angle, r, step)
  {
    CeilSlot(theta - angle, step);
    Min(n - 1, Ceil((theta - angle) / step))
  }

  /** `floor(a / step)` whole steps fit into `a`, one more does not. */
  lemma FloorSlot(a: real, step: real)
    requires step != 0.0
    ensures step > 0.0 ==>
              Floor(a / step) as real * step <= a < (Floor(a / step) + 1) as real * step
    ensures step > 0.0 && 0.0 < a ==> 0 <= Floor(a / step)
  {
    if step > 0.0 {
      var q := a / step;
      var lo := Floor(q) as real;
      assert (Floor(q) + 1) as real == lo + 1.0;
      assert q * step == a;
      UnitBracket(lo, q, step, a);
      if 0.0 < a {
        StrictlyBelowQuotient(0, a, step);
      }
    }
  }

  /** `ceil(a / step)` whole steps reach `a`, one fewer does not. */
  lemma CeilSlot(a: real, step: real)
    requires step != 0.0
    ensures step > 0.0 ==>
              (Ceil(a / step) - 1) as real * step < a <= Ceil(a / step) as real * step
  {
    if step > 0.0 {
      var q := a / step;
      var lo := (Ceil(q) - 1) as real;
      assert Ceil(q) as real == lo + 1.0;
      assert lo < q <= lo + 1.0;
      Bracket(lo, q, lo + 1.0, step);
    }
  }

  /** If `q` is `a` in steps and `lo <= q < lo + 1`, then `lo` steps fit
      into `a` and `lo + 1` steps do not. */
  lemma UnitBracket(lo: real, q: real, step: real, a: real)
    requires step > 0.0 && q * step == a && lo <= q < lo + 1.0
    ensures lo * step <= a < (lo + 1.0) * step
  {
    TimesStepWeak(lo, q, step);
    var hi := lo + 1.0;
    TimesStepStrict(q, hi, step);
    assert a < hi * step;
  }

  /** Scaling `lo <= q < hi` by a positive step keeps the order. */
  lemma Bracket(lo: real, q: real, hi: real, step: real)
    requires step > 0.0 && lo <= q <= hi
    ensures lo * step <= q * step <= hi * step
    ensures lo < q ==> lo * step < q * step
    ensures q < hi ==> q * step < hi * step
  {
    TimesStepWeak(lo, q, step);
    TimesStepWeak(q, hi, step);
    if lo < q {
      TimesStepStrict(lo, q, step);
    }
    if q < hi {
      TimesStepStrict(q, hi, step);
    }
  }

  /** The window for `n` items at rotation `angle` with spacing `step`. When
      the end falls below the start, both fall back to 0. */
  function ComputeWindow(n: int, angle: real, theta: real, step: real): (r: Result<Window>)
    ensures r.Success? <==> step != 0.0
    ensures r.Failure? ==> r.error == DivideByZero
    ensures r.Success? ==> r.value.start <= r.value.end
    ensures r.Success? ==> r.value.end <= n - 1 || r.value == Window(0, 0)
    ensures r.Success? ==>
              (r.value == Window(0, 0) || r.value == Window(RawStart(angle, theta, step), RawEnd(n, angle, theta, step)))
    ensures r.Success? ==>
              (RawEnd(n, angle, theta, step) < RawStart(angle, theta, step) ==> r.value == Window(0, 0))
    ensures r.Success? ==>
              (RawStart(angle, theta, step) <= RawEnd(n, angle, theta, step) ==>
                 r.value == Window(RawStart(angle, theta, step), RawEnd(n, angle, theta, step)))
  {
    if step == 0.0 then Failure(DivideByZero)
    else
      var start := RawStart(angle, theta, step);
      var end := RawEnd(n, angle, theta, step);
      if end < start then Success(Window(0, 0)) else Success(Window(start, end))
  }

  lemma BelowQuotient(i: int, a: real, step: real)
    requires step > 0.0 && i as real * step <= a
    ensures i as real <= a / step
  {
    assert (a / step - i as real) * step == a - i as real * step;
  }

  lemma AboveQuotient(i: int, a: real, step: real)
    requires step > 0.0 && a <= i as real * step
    ensures a / step <= i as real
  {
    assert (i as real - a / step) * step == i as real * step - a;
  }

  lemma StrictlyBelowQuotient(i: int, a: real, step: real)
    requires step > 0.0 && i as real * step < a
    ensures i as real < a / step
  {
    assert (a / step - i as real) * step == a - i as real * step;
  }

  /** With at least one item and a positive spacing the window lies within
      the items: `0 <= start <= end <= n - 1`. */
  lemma WindowBounds(n: int, angle: real, theta: real, step: real)
    requires n >= 1 && step > 0.0
    ensures ComputeWindow(n, angle, theta, step).Success?
    ensures 0 <= ComputeWindow(n, angle, theta, step).value.start
    ensures ComputeWindow(n, angle, theta, step).value.end <= n - 1
  {
    if angle < -theta {
      BelowQuotient(0, -theta - angle, step);
    }
  }

  /** Every item whose angle lies within `[-theta, theta]` is in the window. */
  lemma WindowCoversVisibleItems(n: int, angle: real, theta: real, step: real, i: int)
    requires step > 0.0 && 0 <= i < n
    requires -theta <= SlotAngle(angle, i, step) <= theta
    ensures ComputeWindow(n, angle, theta, step).Success?
    ensures ComputeWindow(n, angle, theta, step).value.start <= i
    ensures i <= ComputeWindow(n, angle, theta, step).value.end
  {
    var s := RawStart(angle, theta, step);
    var e := RawEnd(n, angle, theta, step);
    if angle < -theta {
      AboveQuotient(i, -theta - angle, step);
    }
    assert s <= i;
    BelowQuotient(i, theta - angle, step);
    assert i <= e;
  }

  /** Conversely, outside the fallback every item in the window is less than
      one spacing beyond the visible aperture. */
  lemma WindowIsTight(n: int, angle: real, theta: real, step: real, i: int)
    requires step > 0.0
    requires RawStart(angle, theta, step) <= i <= RawEnd(n, angle, theta, step)
    ensures -theta - step < SlotAngle(angle, i, step) < theta + step
  {
    var s, e := RawStart(angle, theta, step), RawEnd(n, angle, theta, step);
    SlotMonotone(angle, s, i, step);
    SlotMonotone(angle, i, e, step);
    if angle < -theta {
      assert SlotAngle(angle, s + 1, step) == SlotAngle(angle, s, step) + step;
    }
  }

  /** Later items sit at larger angles when the spacing is positive. */
  lemma SlotMonotone(angle: real, i: int, j: int, step: real)
    requires i <= j && step > 0.0
    ensures SlotAngle(angle, i, step) <= SlotAngle(angle, j, step)
  {
    TimesStepWeak(i as real, j as real, step);
  }

  lemma TimesStepStrict(x: real, y: real, step: real)
    requires x < y && step > 0.0
    ensures x * step < y * step
  {
    assert (y - x) * step > 0.0;
  }

  lemma TimesStepWeak(x: real, y: real, step: real)
    requires x <= y && step > 0.0
    ensures x * step <= y * step
  {
    assert (y - x) * step >= 0.0;
  }

  /** The center every visible item gets: the middle of the visible bounds. */
  function VisibleCenter(v: View): Point {
    Point(v.contentOffset.x + v.bounds.size.width / 2.0, v.bounds.MidY())
  }

  /** One entry after the per-frame assignment of center and angle. */
  function Stamp(a: Attributes, center: Point, angle: real): (r: Attributes)
    ensures r.center == center && r.angle == angle && Consistent(r)
    ensures r.item == a.item && r.size == a.size && r.anchorPoint == a.anchorPoint
  {
    WithAngle(a.(center := center), angle)
  }

  /** The window the query uses for view `v`, with visibility half-angle
      `theta` (the caller's `atan2(width/2, radius + height/2 - bounds/2)`).
      With at least one item and a positive spacing it lies within the items
      and contains every item whose angle is within `[-theta, theta]` at the
      current rotation. */
  function WindowOf(l: Layout, v: View, theta: real): (r: Result<Window>)
    ensures r.Success? <==> Angle(l.config, v).Success? && l.config.anglePerItem != 0.0
    ensures r.Failure? ==> r.error == DivideByZero
    ensures r.Success? && v.itemCount >= 1 && l.config.anglePerItem > 0.0 ==>
              0 <= r.value.start <= r.value.end < v.itemCount
    ensures r.Success? && l.config.anglePerItem > 0.0 ==>
              forall i | 0 <= i < v.itemCount &&
                         -theta <= SlotAngle(Angle(l.config, v).value, i, l.config.anglePerItem) <= theta ::
                r.value.start <= i <= r.value.end
  {
    match Angle(l.config, v)
    case Failure(e) => Failure(e)
    case Success(angle) =>
      ApertureInWindow(v.itemCount, angle, theta, l.config.anglePerItem);
      ComputeWindow(v.itemCount, angle, theta, l.config.anglePerItem)
  }

  /** `WindowBounds` and `WindowCoversVisibleItems` for all items at once. */
  lemma ApertureInWindow(n: int, angle: real, theta: real, step: real)
    ensures step > 0.0 && n >= 1 ==>
              ComputeWindow(n, angle, theta, step).Success? &&
              0 <= ComputeWindow(n, angle, theta, step).value.start &&
              ComputeWindow(n, angle, theta, step).value.end <= n - 1
    ensures step > 0.0 ==>
              forall i | 0 <= i < n && -theta <= SlotAngle(angle, i, step) <= theta ::
                ComputeWindow(n, angle, theta, step).Success? &&
                ComputeWindow(n, angle, theta, step).value.start <= i <= ComputeWindow(n, angle, theta, step).value.end
  {
    if step > 0.0 {
      if n >= 1 {
        WindowBounds(n, angle, theta, step);
      }
      forall i | 0 <= i < n && -theta <= SlotAngle(angle, i, step) <= theta
        ensures ComputeWindow(n, angle, theta, step).Success?
        ensures ComputeWindow(n, angle, theta, step).value.start <= i <= ComputeWindow(n, angle, theta, step).value.end
      {
        WindowCoversVisibleItems(n, angle, theta, step, i);
      }
    }
  }

  /** The answer to a visible-elements query: the visible entries in index
      order, and the cache with those entries updated in place. */
  datatype Frame = Frame(visible: seq<Attributes>, layout: Layout)

  /** The window lies within the cache. */
  predicate Fits(w: Window, list: seq<Attributes>) {
    0 <= w.start && w.end < |list|
  }

  /** `after` is `before` with every entry in the window given `center` and
      the angle of its slot, `angle + i * step`, and every other entry
      untouched. */
  predicate StampedIn(before: seq<Attributes>, after: seq<Attributes>, w: Window,
                      center: Point, angle: real, step: real)
  {
    |after| == |before| &&
    (forall i | 0 <= i < |after| && (i < w.start || w.end < i) :: after[i] == before[i]) &&
    (forall i | 0 <= i < |after| && w.start <= i <= w.end ::
       after[i] == Stamp(before[i], center, SlotAngle(angle, i, step)))
  }

  /** The loop over the window: stamp each entry in it. */
  function StampWindow(list: seq<Attributes>, w: Window, center: Point, angle: real, step: real)
    : (r: seq<Attributes>)
    ensures StampedIn(list, r, w, center, angle, step)
  {
    seq(|list|, i requires 0 <= i < |list| =>
          if w.start <= i <= w.end then Stamp(list[i], center, SlotAngle(angle, i, step))
          else list[i])
  }

  /** `layoutAttributesForElements(in:)`. Its rectangle argument is never
      read, so it is not a parameter here. */
  function LayoutAttributesForElements(l: Layout, v: View, theta: real): (r: Result<Frame>)
    ensures r.Success? <==> WindowOf(l, v, theta).Success? && Fits(WindowOf(l, v, theta).value, l.attributesList)
    ensures WindowOf(l, v, theta).Failure? ==> r == Failure(WindowOf(l, v, theta).error)
    ensures WindowOf(l, v, theta).Success? && !Fits(WindowOf(l, v, theta).value, l.attributesList) ==>
              r == Failure(IndexOutOfRange)
    ensures r.Success? ==> r.value.layout.config == l.config
    ensures r.Success? ==>
              StampedIn(l.attributesList, r.value.layout.attributesList, WindowOf(l, v, theta).value,
                        VisibleCenter(v), Angle(l.config, v).value, l.config.anglePerItem)
    ensures r.Success? ==>
              var w := WindowOf(l, v, theta).value;
              r.value.visible == r.value.layout.attributesList[w.start..w.end + 1]
  {
    match WindowOf(l, v, theta)
    case Failure(e) => Failure(e)
    case Success(w) =>
      if !Fits(w, l.attributesList) then Failure(IndexOutOfRange)
      else
        var list := StampWindow(l.attributesList, w, VisibleCenter(v), Angle(l.config, v).value, l.config.anglePerItem);
        Success(Frame(list[w.start..w.end + 1], l.(attributesList := list)))
  }

  /** On an indexed, consistent cache the visible entries come back in index
      order, each consistent and centered in the bounds, and each equal to
      what a lookup of its item returns afterwards. */
  lemma VisibleInIndexOrder(l: Layout, v: View, theta: real)
    requires Indexed(l.attributesList)
    ensures LayoutAttributesForElements(l, v, theta).Success? ==>
              var f, w := LayoutAttributesForElements(l, v, theta).value, WindowOf(l, v, theta).value;
              Indexed(f.layout.attributesList) &&
              forall k | 0 <= k < |f.visible| ::
                f.visible[k].item == w.start + k &&
                f.visible[k].center == VisibleCenter(v) &&
                Consistent(f.visible[k]) &&
                LayoutAttributesForItem(f.layout, w.start + k) == Success(f.visible[k])
  {
    if LayoutAttributesForElements(l, v, theta).Success? {
      var f, w := LayoutAttributesForElements(l, v, theta).value, WindowOf(l, v, theta).value;
      var list := f.layout.attributesList;
      forall i | 0 <= i < |list|
        ensures list[i].item == i
      {
        if w.start <= i <= w.end {
          assert list[i].item == l.attributesList[i].item;
        }
      }
      forall k | 0 <= k < |f.visible|
        ensures f.visible[k].item == w.start + k
        ensures f.visible[k].center == VisibleCenter(v) && Consistent(f.visible[k])
        ensures LayoutAttributesForItem(f.layout, w.start + k) == Success(f.visible[k])
      {
        assert f.visible[k] == list[w.start + k];
      }
    }
  }

  /** The guard as written never holds right after a rebuild, so the
      `prepare` of the next layout pass throws away the cache the query has
      just stamped: it rebuilds exactly the cache of the previous pass, with
      every angle back at 0. */
  lemma PrepareRebuildsEveryPass(l: Layout, v: View, theta: real)
    requires Prepare(l, v.itemCount).Success? && |l.attributesList| != v.itemCount - 1
    ensures var built := Prepare(l, v.itemCount).value;
            LayoutAttributesForElements(built, v, theta).Success? ==>
            var stamped := LayoutAttributesForElements(built, v, theta).value.layout;
            Prepare(stamped, v.itemCount) == Success(built) &&
            forall i | 0 <= i < v.itemCount ::
              Prepare(stamped, v.itemCount).value.attributesList[i].angle == 0.0
  {
    var n := v.itemCount;
    var built := Prepare(l, n).value;
    if LayoutAttributesForElements(built, v, theta).Success? {
      var stamped := LayoutAttributesForElements(built, v, theta).value.layout;
      assert IsBuilt(built, n);
      assert |stamped.attributesList| == n && stamped.config == built.config;
      var r := Prepare(stamped, n).value;
      assert IsBuilt(r, n) && r.config == built.config;
      assert r.attributesList == built.attributesList;
      forall i | 0 <= i < n
        ensures r.attributesList[i].angle == 0.0
      {
        assert r.attributesList[i] == Entry(r.config, i);
      }
    }
  }

  /** On a cache built for the current count, with at least one item, a
      positive spacing and content not exactly as wide as the bounds, the
      query always succeeds and the window lies within the items. */
  lemma QuerySucceedsOnBuiltCache(l: Layout, v: View, theta: real)
    requires IsBuilt(l, v.itemCount) && v.itemCount >= 1
    requires l.config.anglePerItem > 0.0 && ScrollExtent(l.config, v) != 0.0
    ensures LayoutAttributesForElements(l, v, theta).Success?
    ensures 0 <= WindowOf(l, v, theta).value.start <= WindowOf(l, v, theta).value.end < v.itemCount
  {
    WindowBounds(v.itemCount, Angle(l.config, v).value, theta, l.config.anglePerItem);
  }

  /** With exactly one item the cache emptied by a setter is never rebuilt
      by `prepare` as written (its length 0 equals the count minus one), and
      the query then subscripts the empty list. */
  lemma SingleItemQueryTraps(l: Layout, v: View, theta: real)
    requires l.attributesList == [] && v.itemCount == 1
    requires l.config.anglePerItem > 0.0 && ScrollExtent(l.config, v) != 0.0
    ensures Prepare(l, 1) == Success(l)
    ensures LayoutAttributesForElements(Prepare(l, 1).value, v, theta) == Failure(IndexOutOfRange)
  {
    WindowBounds(1, Angle(l.config, v).value, theta, l.config.anglePerItem);
  }

  /** With no items the window falls back to `(0, 0)` (the end index is
      -1, below any start), and the query subscripts the empty cache even
      after the corrected `prepare`. */
  lemma NoItemsQueryTraps(l: Layout, v: View, theta: real)
    requires v.itemCount == 0 && l.config.anglePerItem > 0.0 && v.bounds.size.width != 0.0
    ensures PrepareCorrected(l, 0) == Success(l.(attributesList := []))
    ensures WindowOf(l, v, theta) == Success(Window(0, 0))
    ensures LayoutAttributesForElements(PrepareCorrected(l, 0).value, v, theta) == Failure(IndexOutOfRange)
  {
    assert ScrollExtent(l.config, v) == -v.bounds.size.width;
  }

  /** One layout pass as evidently intended: the corrected `prepare`, then
      the visible-elements query, which with no items answers with no
      entries instead of subscripting the empty cache. */
  function LayoutPass(l: Layout, v: View, theta: real): (r: Result<Frame>)
    ensures PrepareCorrected(l, v.itemCount).Failure? ==> r.Failure?
    ensures r.Success? ==> |r.value.layout.attributesList| == v.itemCount
  {
    match PrepareCorrected(l, v.itemCount)
    case Failure(e) => Failure(e)
    case Success(prepared) =>
      if v.itemCount == 0 then Success(Frame([], prepared))
      else LayoutAttributesForElements(prepared, v, theta)
  }

  /** With no items the pass succeeds, shows nothing and leaves an empty
      cache. */
  lemma LayoutPassEmptyWithoutItems(l: Layout, v: View, theta: real)
    requires v.itemCount == 0
    ensures LayoutPass(l, v, theta) == Success(Frame([], l.(attributesList := [])))
  {
  }

  /** With the corrected `prepare`, a pass never subscripts outside the cache:
      for any starting cache, one or more items, a positive spacing, a
      nonzero item height and content not exactly as wide as the bounds,
      the pass succeeds. */
  lemma LayoutPassSucceeds(l: Layout, v: View, theta: real)
    requires v.itemCount >= 1 && l.config.anglePerItem > 0.0
    requires l.config.itemSize.height != 0.0 && ScrollExtent(l.config, v) != 0.0
    ensures LayoutPass(l, v, theta).Success?
  {
    WindowBounds(v.itemCount, Angle(l.config, v).value, theta, l.config.anglePerItem);
  }

  /** Until a setter has run the spacing is 0, so no visible-elements query
      can be answered. */
  lemma InitialLayoutCannotAnswer(v: View, theta: real)
    ensures LayoutAttributesForElements(Initial, v, theta).Failure?
  {
  }
}
